=== FILE: README.md ===
# car-physics: a verified model of the per-frame car step

The browser demo in `src/main.js` drives a box-shaped car with arrow or WASD keys and Space. It runs
around walls and cones, and it drives up two ramps. Once per animation frame, `resolveCollisionsAndMove`
advances the car. This project models that step and the helpers it calls, over exact reals, and proves
what each part guarantees.

The per-frame step works as follows:

- **Steering.** The heading turns in proportion to the forward speed, up to `maxSpeed`. It does not turn
  at all at or below a forward speed of 0.02.
- **Velocity.** Throttle and brake act along the new heading. Air drag follows, then the speed is capped
  at `maxSpeed`.
- **Jump.** A jump adds `jumpForce` to the vertical velocity when the car is near the ground.
- **Obstacles.** The car is moved tentatively. Its box at the tentative position is tested against every
  obstacle box, and the longest minimum translation vector (MTV) is kept. If that vector is nonzero, it
  pushes the car out from its position *before* the tentative move. The velocity then loses its component
  along the push: a restitution bounce is followed by a projection onto the plane orthogonal to the MTV.
- **Ramps and gravity.** The first ramp under the car's footprint either snaps the car up to the ramp
  surface or blends it towards that surface. When no ramp is under the car, gravity acts and the car is
  clamped at its resting height `carHeight / 2`.
- **Time step.** The render loop caps the frame time at 50 ms.

Modules:

- `Vectors` (`vectors.dfy`) holds `Vec3` and the vector algebra the step uses.
- `Geometry` (`geometry.dfy`) holds the pure helpers: `BoxFromCenterAndSize`, `GetMTV`, `ProjectOnPlane`
  and `PlaneHeightAtXZ`, with their properties.
- `Physics` (`physics.dfy`) holds the tuning constants and one function per phase: `Drive`, `Collide`
  and `Settle`. It also holds `StepSpec`, the whole step as a function of the state before the frame,
  and the lemmas about the phases and the step.
- `CarModel` (`car.dfy`) holds the `Car` class. Its fields are `position`, `velocity` and `yaw`, and its
  methods update them in place, as the source updates the mesh and the global `velocity`.
  - The obstacle loop is `ScanObstacles`.
  - The ramp loop with its early `break` is `SnapToRamps`.
  - `Step` runs the three phase methods in order. It is proved to leave exactly the state `StepSpec`
    gives.

Inputs that come from three.js are parameters:

- obstacle boxes (`computeAABB`);
- ramp boxes, normals and anchors;
- the heading's forward vector, `forwardAt`;
- the Euclidean length, `length`, which is constrained by `Measures` to be the square root of the
  squared length.

Three behaviours of the code are easy to misread; the model follows the code:

- **Jump.** The jump *adds* `jumpForce` to the vertical velocity rather than setting it. Gravity is
  applied in the same frame. So when no obstacle pushes the car and no ramp is under it, right after a
  jump from the ground the vertical velocity is `jumpForce + gravity·k` (`JumpTakesOff`).
- **Throttle and brake together.** Holding both does not let throttle win. The two rates add up, to
  0.02 − 0.04.
- **Vertical velocity counted twice.** When no obstacle pushes the car and no ramp is under it, the
  vertical velocity moves the car twice in one frame: once in the tentative move, and once more in the
  gravity phase (`VerticalMoveTwice`). A push-out discards the tentative move.

## Model

| member | source | states |
|---|---|---|
| Geometry.BoxFromCenterAndSize | src/main.js:15-21 | the box's centre is the given centre and its extent the given size, on every axis |
| Geometry.Center | src/main.js:38-39 | Box3.getCenter, the midpoint of the two corners; BoxFromCenterAndSize states that a built box has the given centre |
| Geometry.Overlap | src/main.js:28-30 | the length of the intersection of the two intervals on one axis; specified through GetMTV, MinAxis and Intersects |
| Geometry.Separated | src/main.js:31 | getMTV's rejection test, some axis overlap ≤ 0; GetMTV returns nothing exactly when it holds |
| Geometry.MinAxis | src/main.js:33-35 | the chosen axis has the smallest overlap, and every earlier axis (x before y before z) has a strictly larger one |
| Geometry.GetMTV | src/main.js:27-46 | no MTV exactly when some axis overlap is ≤ 0; otherwise a vector along exactly one axis, the smallest-overlap axis, whose magnitude is that overlap and which is negative exactly when a's centre is below b's on that axis |
| Geometry.MtvImpliesIntersects | src/main.js:31 | an MTV exists only for boxes that pass the closed intersection test, so the test in front of getMTV never discards one |
| Geometry.MtvLeavesTouching | src/main.js:37-45 | when a's interval partially overlaps b's on the MTV axis, moving a by the MTV leaves the two intervals exactly touching, and the moved box has no MTV against b |
| Geometry.ProjectOnPlane | src/main.js:48-52 | the result is orthogonal to a nonzero normal and agrees with the input on every vector of the plane |
| Geometry.ProjectUnique | src/main.js:48-52 | those two properties determine the projection uniquely |
| Geometry.ProjectIdempotent | src/main.js:48-52 | projecting twice equals projecting once |
| Geometry.ProjectScaleInvariant | src/main.js:49 | scaling the normal by any nonzero factor leaves the projection unchanged, so normalising it first is immaterial |
| Geometry.ProjectAlongAxis | src/main.js:48-52 | for a normal along one axis, the projection zeroes that component and keeps the other two |
| Geometry.PlaneHeightAtXZ | src/main.js:210-215 | no height exactly when abs(ny) < 1e-6; otherwise the point (x, h, z) lies on the plane |
| Geometry.Intersects | src/main.js:254 | three.js intersectsBox as used at lines 254 and 286: nonnegative overlap on every axis makes two boxes intersect, and for proper boxes (min not above max) intersecting boxes overlap nonnegatively on every axis, so touching boxes count |
| Geometry.PlaneHeightAtAnchor | src/main.js:210-215 | at the anchor's x and z the height is the anchor's y |
| Physics.FramesIsRatio | src/main.js:248 | the number of reference frames a step spans, written dt·60, is the source's dt/deltaTime |
| Physics.ForwardAccel | src/main.js:223-225 | the forward acceleration from the throttle and brake keys; ForwardAccelSign gives its exact value for every key combination |
| Physics.ForwardAccelSign | src/main.js:223-225 | the acceleration is positive exactly under throttle alone, negative exactly when the brake is held (with or without throttle), zero exactly with neither; it is exactly accelerationRate (0.02) under throttle alone, −brakingRate (−0.04) under brake alone, and their sum 0.02 − 0.04 with both held |
| Physics.Turn | src/main.js:227-229 | the turn input from the left and right keys; specified by TurnSign |
| Physics.TurnSign | src/main.js:227-229 | the turn is positive exactly under left alone, negative exactly under right alone, and its magnitude is 0.035 when exactly one key is held and 0 otherwise |
| Physics.FrameDt | src/main.js:326 | the frame time never exceeds 0.05 s, is the elapsed milliseconds in seconds when at most 50 ms elapsed, is exactly 0.05 s when 50 ms or more elapsed, and is never negative for a nonnegative elapsed time |
| Physics.Sign | src/main.js:233 | Math.sign, used by SteerYaw; its direction clause states the effect |
| Physics.SteerYaw | src/main.js:231-235 | no turn when the forward speed is at most 0.02; the turn never exceeds the turn input, is exactly turn·|speed|/maxSpeed in size between 0.02 and maxSpeed (the turn in proportion to the forward speed), is the full input at and above top speed, and flips direction when moving backwards |
| Physics.Measures | src/main.js:241 | `length` is Vector3.length, as used at lines 241 and 256: nonnegative, and its square is the squared length; LengthZeroIff and LengthPositive state its consequences |
| Physics.Accelerate | src/main.js:237-240 | throttle along the new heading, then air drag; DriveFromRest states that from rest with neither key it leaves the velocity zero |
| Physics.ClampSpeed | src/main.js:241 | the squared speed never exceeds maxSpeed²; a speed within the limit is untouched; a faster velocity becomes exactly maxSpeed long along the same direction |
| Physics.JumpGate | src/main.js:244-246 | the jump input changes only the vertical velocity, by exactly +jumpForce, and only when y ≤ carHeight/2 + 0.01 |
| Physics.JumpImpulse | src/main.js:244-246 | the jump impulse; specified by JumpImpulseGate and, within the driving phase, by JumpGate |
| Physics.JumpImpulseGate | src/main.js:244-246 | x and z velocity are never touched; the velocity changes exactly when jump is held with y ≤ carHeight/2 + 0.01, and then y gains exactly jumpForce |
| Physics.DriveSpeedBound | src/main.js:237-246 | without a jump impulse the velocity after the driving phase is at most maxSpeed |
| Physics.Candidate | src/main.js:254-255 | the intersectsBox gate, then getMTV; CandidateIsMtv states that it equals getMTV |
| Physics.CandidateIsMtv | src/main.js:254-255 | the intersection gate yields exactly getMTV's result, and every MTV is nonzero |
| Physics.Longest | src/main.js:251-258 | the strictly-longer fold from the zero vector; specified by LongestIsFirstMaximum |
| Physics.LongestIsFirstMaximum | src/main.js:251-258 | the strictly-greater fold yields zero exactly when no candidate is present, is at least as long as every candidate, and is the first candidate of maximal length |
| Physics.LargestMtv | src/main.js:251-258 | the obstacle scan as a function; specified by LargestMtvIsFirstMaximum, and the loop ScanObstacles is proved equal to it |
| Physics.LargestMtvIsFirstMaximum | src/main.js:251-258 | the obstacle scan yields zero exactly when no obstacle has an MTV, otherwise the MTV of the first obstacle whose MTV is longest |
| Physics.LargestMtvAlongAxis | src/main.js:251-258 | a nonzero scan result lies along a single axis |
| Physics.CollisionAxis | src/main.js:262-266 | the chosen axis has the largest absolute MTV component, ties broken x before y before z |
| Physics.Respond | src/main.js:262-272 | after bounce and projection the velocity is orthogonal to any nonzero MTV; RespondZeroesAxis gives its exact value for a single-axis MTV |
| Physics.RespondZeroesAxis | src/main.js:262-272 | for a single-axis MTV the response zeroes exactly that velocity component and keeps the others, so the restitution bounce never survives |
| Physics.ResolveAlongAxis | src/main.js:260-272 | with a single-axis MTV the car moves from its pre-step position by the MTV and loses its velocity on that axis |
| Physics.Drive | src/main.js:221-246 | the driving phase (steering, throttle, drag, speed clamp, jump); specified by JumpGate, DriveSpeedBound and DriveFromRest, and Car.Drive is proved to produce it |
| Physics.Resolve | src/main.js:260-275 | push-out and collision response for a given MTV; specified by ResolveAlongAxis and ResolveZero |
| Physics.Advance | src/main.js:248 | the tentative move, position + velocity·(dt/deltaTime); CollideSpec and AdvanceY state its use |
| Physics.Collide | src/main.js:248-275 | the obstacle phase; specified by CollideSpec and CollideClear, and Car.Collide is proved to produce it |
| Physics.CollideSpec | src/main.js:248-275 | with no MTV the car lands at position + velocity·(dt/deltaTime) with its velocity unchanged; otherwise it lands at its pre-step position plus the MTV, and its velocity loses exactly the component on the MTV's axis |
| Physics.RampTarget | src/main.js:279-298 | the ramp scan with its early break; specified by RampTargetIsFirstMatch, and the loop Car.SnapToRamps is proved to agree with it |
| Physics.RampTargetIsFirstMatch | src/main.js:279-298 | the ramp scan finds nothing exactly when no ramp is hit, and otherwise the height of the first ramp hit in list order |
| Physics.Expand | src/main.js:281-283 | a ramp box grown by 0.5 on x and z; used by RampHit, specified through RampTargetIsFirstMatch |
| Physics.FootBox | src/main.js:285 | the thin box under the car (width × 0.1 × length, at y 0); used by RampHit |
| Physics.RampHit | src/main.js:281-289 | one ramp's test: the grown box against the foot box, then the plane height; RampTargetIsFirstMatch states how the scan combines these results |
| Physics.Lerp | src/main.js:292 | MathUtils.lerp; RampY states its effect exactly, the gap to desiredY shrinking to 0.7 |
| Physics.RampY | src/main.js:288-292 | the car snaps to desiredY when more than 0.001 below it; otherwise it blends: the remaining gap desiredY − y shrinks to exactly 0.7 of what it was, so the new y lies between the old y and desiredY and is strictly closer unless already there |
| Physics.OnRamp | src/main.js:288-294 | the on-ramp update; SettleOnRamp states it: vy becomes 0, x and z stay, y follows RampY towards the ramp height plus carHeight/2 |
| Physics.Settle | src/main.js:277-304 | the ramp or gravity phase; specified by SettleOnRamp and SettleOffRamp, and Car.Settle is proved to produce it |
| Physics.SettleOnRamp | src/main.js:283-296 | on the first ramp hit the vertical velocity becomes 0, x and z stay, and y follows RampY towards that ramp's height plus carHeight/2 |
| Physics.Fall | src/main.js:300-304 | x, z, horizontal velocity and heading are unchanged; vy gains gravity·k; if the height plus the new vy times k is at least carHeight/2 the car moves there with that vy, otherwise it is clamped at carHeight/2 with vy 0 |
| Physics.Frames | src/main.js:301-302 | dt/deltaTime, the number of reference frames a step spans, used by the tentative move and by gravity; specified by FramesIsRatio |
| Physics.SettleOffRamp | src/main.js:300-304 | with no ramp hit the final y is at least carHeight/2, x, z and horizontal velocity stay, the vertical velocity is 0 whenever the ground clamp fired, and it gained gravity·k whenever the car ends above the ground |
| Physics.FallAtRest | src/main.js:300-304 | a car on the ground with no vertical velocity stays there under gravity |
| Physics.DriveFromRest | src/main.js:221-246 | from rest without throttle or brake the driving phase keeps position and heading and leaves the velocity zero, or exactly (0, jumpForce, 0) when jumping from the ground |
| Physics.CollideClear | src/main.js:248-275 | when no obstacle has an MTV at the tentative position, the car takes the whole tentative move and keeps its velocity |
| Physics.FallFree | src/main.js:300-304 | above the ground clamp, gravity adds gravity·k to the vertical velocity and the height gains that velocity times k |
| Physics.VerticalMoveTwice | src/main.js:248-304 | when no obstacle has an MTV and no ramp is hit at the tentative position, the height gains the vertical velocity times k twice in one frame: before and after gravity |
| Physics.StepSpec | src/main.js:220-305 | the whole frame as a function of the state before it; Car.Step is proved to produce it, and RestingIsStable and JumpTakesOff state what it does |
| Physics.RestingIsStable | src/main.js:220-305 | a car at rest on the ground, with no input, obstacle or ramp in reach, is left exactly as it was by the whole step |
| Physics.JumpTakesOff | src/main.js:244-304 | when no obstacle has an MTV and no ramp is hit at the tentative position, a jump from rest leaves the ground in the same frame, with vertical velocity jumpForce + gravity·k and height carHeight/2 + jumpForce·k + (jumpForce + gravity·k)·k |
| CarModel.ScanObstacles | src/main.js:250-258 | the loop returns exactly the obstacle scan's result |
| CarModel.Car.constructor | src/main.js:171 | the car starts at (0, carHeight/2, 5) with zero velocity and heading 0 |
| CarModel.Car.SnapToRamps | src/main.js:277-298 | the loop reports a ramp exactly when the ramp scan finds one, then applies the on-ramp update for the first ramp hit; otherwise it changes nothing |
| CarModel.Car.Drive | src/main.js:221-246 | updates heading and velocity in place to the driving phase's result |
| CarModel.Car.Collide | src/main.js:248-275 | updates position and velocity in place to the obstacle phase's result |
| CarModel.Car.Settle | src/main.js:277-304 | updates height and vertical velocity in place to the ramp or gravity phase's result |
| CarModel.Car.Step | src/main.js:220-305 | the step leaves exactly the state StepSpec gives for the state before it |

## Left out

- Scene, rendering, camera follow, the resize handler, keyboard listeners and the animation-loop
  scheduling are not modelled. They are setup and I/O. The keys held in a frame become the `Controls`
  value, and the elapsed milliseconds become the argument of `FrameDt`.
- `computeAABB` (`Box3.setFromObject`) and `getRampPlane` (world quaternion and position) call into
  three.js. Obstacle boxes, ramp boxes and ramp planes are inputs.
- The quaternion forward vector is the parameter `forwardAt`. Heading is kept as the yaw angle.
- `Vector3.length` is the parameter `length`, constrained only by `Measures`.
- Physics.ClampSpeed: `setLength` is modelled as scaling by maxSpeed / length, which is exact over the
  reals. Floating-point rounding is not modelled anywhere; all arithmetic is on exact reals.
- Geometry.ProjectOnPlane: written as v − n·(v·n)/(n·n) rather than normalising n first. The two agree
  over the reals (ProjectScaleInvariant).
- The unused constants `reverseRate` and `frictionGround`, and the unused variables `throttle` and
  `steering`, have no effect and are not modelled.
- The root `main.js`, a legacy version of the movement loop without collisions, is not part of this
  model.

=== FILE: car.dfy ===
/** The car as src/main.js keeps it: a mesh whose position and heading, and
    a velocity beside it, that resolveCollisionsAndMove updates in place once
    per frame. Each method is proved to leave the state that the functions
    of module Physics describe. */
module CarModel {
  import opened Vectors
  import opened Geometry
  import opened Physics

  /** The obstacle loop: the longest MTV found so far is replaced only by a
      strictly longer one. */
  method ScanObstacles(box: AABB, obstacles: seq<AABB>, length: Vec3 -> real) returns (combined: Vec3)
    ensures combined == LargestMtv(box, obstacles, length)
  {
    combined := Zero();
    for i := 0 to |obstacles|
      invariant combined == LargestMtv(box, obstacles[..i], length)
    {
      assert obstacles[..i + 1][..i] == obstacles[..i];
      if Intersects(box, obstacles[i]) {
        var mtv := GetMTV(box, obstacles[i]);
        if mtv.Some? && length(mtv.value) > length(combined) {
          combined := mtv.value;
        }
      }
    }
    assert obstacles[..|obstacles|] == obstacles;
  }

  class Car {
    var position: Vec3
    var velocity: Vec3
    var yaw: real

    function State(): Kinematics
      reads this
    {
      Kinematics(position, velocity, yaw)
    }

    /** The car starts at rest on the ground at (0, carHeight / 2, 5),
        facing -z. */
    constructor ()
      ensures State() == Kinematics(Vec3(0.0, restY, 5.0), Zero(), 0.0)
    {
      position := Vec3(0.0, restY, 5.0);
      velocity := Zero();
      yaw := 0.0;
    }

    /** The ramp loop: the first ramp under the car sets its height and
        stops the scan; with none, nothing changes. */
    method SnapToRamps(ramps: seq<Ramp>) returns (onAnyRamp: bool)
      modifies this
      ensures onAnyRamp <==> RampTarget(ramps, old(position)).Some?
      ensures onAnyRamp ==> State() == OnRamp(old(State()), RampTarget(ramps, old(position)).value)
      ensures !onAnyRamp ==> State() == old(State())
    {
      onAnyRamp := false;
      var i := 0;
      while i < |ramps|
        invariant 0 <= i <= |ramps| && !onAnyRamp
        invariant State() == old(State())
        invariant RampTarget(ramps, position) == RampTarget(ramps[i..], position)
      {
        assert ramps[i..][1..] == ramps[i + 1..];
        var rampBox := Expand(ramps[i].box);
        var foot := FootBox(position);
        if Intersects(foot, rampBox) {
          var targetY := PlaneHeightAtXZ(ramps[i].plane, position.x, position.z);
          if targetY.Some? {
            var desiredY := targetY.value + carHeight / 2.0;
            if position.y < desiredY - snapEpsilon {
              position := position.(y := desiredY);
              velocity := velocity.(y := 0.0);
            } else {
              position := position.(y := Lerp(position.y, desiredY, rampBlend));
            }
            velocity := velocity.(y := 0.0);
            onAnyRamp := true;
            break;
          }
        }
        i := i + 1;
      }
    }

    /** Steering, throttle, drag, speed limit and jump. */
    method Drive(c: Controls, forwardAt: real -> Vec3, length: Vec3 -> real)
      requires Measures(length)
      modifies this
      ensures State() == Physics.Drive(old(State()), c, forwardAt, length)
    {
      var speedForward := Dot(velocity, forwardAt(yaw));
      yaw := SteerYaw(yaw, speedForward, Turn(c));
      velocity := Accelerate(velocity, forwardAt(yaw), c);
      velocity := ClampSpeed(velocity, length(velocity));
      velocity := JumpImpulse(velocity, position.y, c.jump);
    }

    /** Tentative move, obstacle scan, push-out and collision response. */
    method Collide(dt: real, obstacles: seq<AABB>, length: Vec3 -> real)
      modifies this
      ensures State() == Physics.Collide(old(State()), dt, obstacles, length)
    {
      var nextPos := Advance(position, velocity, dt);
      var combinedMtv := ScanObstacles(BoxFromCenterAndSize(nextPos, CarSize()), obstacles, length);
      if LengthSq(combinedMtv) > 0.0 {
        position := Add(position, combinedMtv);
        velocity := Respond(velocity, combinedMtv);
      } else {
        position := nextPos;
      }
    }

    /** Ramps, or else gravity and the ground clamp. */
    method Settle(dt: real, ramps: seq<Ramp>)
      modifies this
      ensures State() == Physics.Settle(old(State()), dt, ramps)
    {
      var onAnyRamp := SnapToRamps(ramps);
      if !onAnyRamp {
        var k := Frames(dt);
        velocity := velocity.(y := velocity.y + gravity * k);
        position := position.(y := position.y + Mul(velocity.y, k));
        if position.y < restY {
          position := position.(y := restY);
          velocity := velocity.(y := 0.0);
        }
      }
    }

    /** resolveCollisionsAndMove: one frame of `dt` seconds under controls
        `c`, among `obstacles` and `ramps`. */
    method Step(dt: real, c: Controls, forwardAt: real -> Vec3, length: Vec3 -> real,
                obstacles: seq<AABB>, ramps: seq<Ramp>)
      requires Measures(length)
      modifies this
      ensures State() == StepSpec(old(State()), dt, c, forwardAt, length, obstacles, ramps)
    {
      Drive(c, forwardAt, length);
      Collide(dt, obstacles, length);
      Settle(dt, ramps);
    }
  }
}

=== FILE: geometry.dfy ===
/** The geometric helpers of the car step: axis-aligned boxes built from a
    centre and a size, the minimum translation vector between two boxes,
    projection of a vector onto a plane, and the height of an inclined plane
    above a ground point. All of them are pure: they build fresh values. */
module Geometry {
  import opened Vectors

  datatype Option<T> = None | Some(value: T)

  /** An axis-aligned bounding box (three.js Box3). */
  datatype AABB = AABB(min: Vec3, max: Vec3)

  /** A plane through `point` with normal `normal` (not necessarily unit). */
  datatype Plane = Plane(normal: Vec3, point: Vec3)

  function Center(b: AABB): Vec3 { Scale(Add(b.min, b.max), 0.5) }

  function Extent(b: AABB): Vec3 { Sub(b.max, b.min) }

  function Translate(b: AABB, d: Vec3): AABB { AABB(Add(b.min, d), Add(b.max, d)) }

  /** boxFromCenterAndSize: the box whose centre is `c` and whose extent is `s`. */
  function BoxFromCenterAndSize(c: Vec3, s: Vec3): (r: AABB)
    ensures Center(r) == c && Extent(r) == s
  {
    var half := Scale(s, 0.5);
    AABB(Sub(c, half), Add(c, half))
  }

  /** A box whose minimum corner is nowhere above its maximum corner. */
  predicate Proper(b: AABB)
  {
    b.min.x <= b.max.x && b.min.y <= b.max.y && b.min.z <= b.max.z
  }

  /** Box3.intersectsBox: closed-interval overlap on every axis, so boxes that
      only touch intersect. */
  predicate Intersects(a: AABB, b: AABB): (r: bool)
    ensures Overlap(a, b, X) >= 0.0 && Overlap(a, b, Y) >= 0.0 && Overlap(a, b, Z) >= 0.0 ==> r
    ensures Proper(a) && Proper(b) && r ==>
      Overlap(a, b, X) >= 0.0 && Overlap(a, b, Y) >= 0.0 && Overlap(a, b, Z) >= 0.0
  {
    assert Overlap(a, b, X) == Min(a.max.x, b.max.x) - Max(a.min.x, b.min.x);
    assert Overlap(a, b, Y) == Min(a.max.y, b.max.y) - Max(a.min.y, b.min.y);
    assert Overlap(a, b, Z) == Min(a.max.z, b.max.z) - Max(a.min.z, b.min.z);
    !(b.max.x < a.min.x || b.min.x > a.max.x ||
      b.max.y < a.min.y || b.min.y > a.max.y ||
      b.max.z < a.min.z || b.min.z > a.max.z)
  }

  /** Length of the intersection of the two boxes' intervals on axis `k`
      (negative when the intervals are disjoint). */
  function Overlap(a: AABB, b: AABB, k: Axis): real
  {
    Min(Comp(a.max, k), Comp(b.max, k)) - Max(Comp(a.min, k), Comp(b.min, k))
  }

  /** Some axis has no positive overlap: getMTV gives up. */
  predicate Separated(a: AABB, b: AABB)
  {
    Overlap(a, b, X) <= 0.0 || Overlap(a, b, Y) <= 0.0 || Overlap(a, b, Z) <= 0.0
  }

  /** The axis of least overlap; among equal overlaps the earliest of x, y, z. */
  function MinAxis(a: AABB, b: AABB): (k: Axis)
    ensures forall j :: Overlap(a, b, k) <= Overlap(a, b, j)
    ensures forall j :: Index(j) < Index(k) ==> Overlap(a, b, k) < Overlap(a, b, j)
  {
    var ox, oy, oz := Overlap(a, b, X), Overlap(a, b, Y), Overlap(a, b, Z);
    var least := if oy < ox then oy else ox;
    if oz < least then Z
    else if oy < ox then Y
    else X
  }

  /** getMTV: None exactly when the boxes do not overlap on some axis;
      otherwise a vector along the least-overlap axis whose magnitude is that
      overlap and which points from b's centre towards a's (negative exactly
      when a's centre is below b's on that axis). */
  function GetMTV(a: AABB, b: AABB): (r: Option<Vec3>)
    ensures r.None? <==> Separated(a, b)
    ensures r.Some? ==> AlongAxis(r.value, MinAxis(a, b))
    ensures r.Some? ==> Abs(Comp(r.value, MinAxis(a, b))) == Overlap(a, b, MinAxis(a, b))
    ensures r.Some? ==>
      (Comp(r.value, MinAxis(a, b)) < 0.0 <==> Comp(Center(a), MinAxis(a, b)) < Comp(Center(b), MinAxis(a, b)))
  {
    if Separated(a, b) then None
    else
      var k := MinAxis(a, b);
      var overlap := Overlap(a, b, k);
      var signed := if Comp(Center(a), k) < Comp(Center(b), k) then -overlap else overlap;
      assert overlap > 0.0 by { assert Overlap(a, b, X) > 0.0 && Overlap(a, b, Y) > 0.0 && Overlap(a, b, Z) > 0.0; }
      var r := Scale(Unit(k), signed);
      assert forall j :: j != k ==> Comp(r, j) == 0.0;
      Some(r)
  }

  /** A box that getMTV pushes out also passes the intersectsBox gate, so the
      gate in front of getMTV never changes the outcome. */
  lemma MtvImpliesIntersects(a: AABB, b: AABB)
    requires GetMTV(a, b).Some?
    ensures Intersects(a, b)
  {
    assert Overlap(a, b, X) > 0.0 && Overlap(a, b, Y) > 0.0 && Overlap(a, b, Z) > 0.0;
  }

  /** Neither of the two intervals on axis `k` contains the other. */
  predicate PartialOverlap(a: AABB, b: AABB, k: Axis)
  {
    (Comp(a.min, k) < Comp(b.min, k) && Comp(a.max, k) < Comp(b.max, k)) ||
    (Comp(b.min, k) < Comp(a.min, k) && Comp(b.max, k) < Comp(a.max, k))
  }

  /** When the boxes overlap only partially on the chosen axis, translating a
      by its MTV leaves the two intervals exactly touching on that axis, and
      the translated box no longer penetrates b. */
  lemma MtvLeavesTouching(a: AABB, b: AABB)
    requires GetMTV(a, b).Some?
    requires PartialOverlap(a, b, MinAxis(a, b))
    ensures var k, moved := MinAxis(a, b), Translate(a, GetMTV(a, b).value);
      Comp(moved.max, k) == Comp(b.min, k) || Comp(moved.min, k) == Comp(b.max, k)
    ensures GetMTV(Translate(a, GetMTV(a, b).value), b).None?
  {
    var k, m := MinAxis(a, b), GetMTV(a, b).value;
    var moved := Translate(a, m);
    assert Overlap(a, b, k) > 0.0 by {
      assert Overlap(a, b, X) > 0.0 && Overlap(a, b, Y) > 0.0 && Overlap(a, b, Z) > 0.0;
    }
    assert Comp(moved.min, k) == Comp(a.min, k) + Comp(m, k) && Comp(moved.max, k) == Comp(a.max, k) + Comp(m, k) by {
      match k
      case X =>
      case Y =>
      case Z =>
    }
    if Comp(a.min, k) < Comp(b.min, k) && Comp(a.max, k) < Comp(b.max, k) {
      assert Comp(Center(a), k) < Comp(Center(b), k) by {
        match k
        case X =>
        case Y =>
        case Z =>
      }
      assert Comp(moved.max, k) == Comp(b.min, k);
    } else {
      assert Comp(Center(b), k) < Comp(Center(a), k) by {
        match k
        case X =>
        case Y =>
        case Z =>
      }
      assert Comp(moved.min, k) == Comp(b.max, k);
    }
    assert Overlap(moved, b, k) <= 0.0;
    match k
    case X =>
    case Y =>
    case Z =>
  }

  /** projectVectorOnPlane: removes from `v` its component along `n`.
      Normalising `n` first, as the source does, gives the same vector over
      the reals, so the division by |n|^2 stands in for the two square roots;
      a zero normal stays zero under three.js's normalize and leaves `v` as is.
      The result is orthogonal to a nonzero `n` and agrees with `v` on every
      direction within the plane; ProjectUnique shows that these two facts
      determine it. */
  function ProjectOnPlane(v: Vec3, n: Vec3): (r: Vec3)
    ensures n != Zero() ==> Dot(r, n) == 0.0
    ensures forall w :: Dot(w, n) == 0.0 ==> Dot(r, w) == Dot(v, w)
  {
    LengthSqZero(n);
    if LengthSq(n) == 0.0 then v
    else
      var t := Dot(v, n) / LengthSq(n);
      DotSubScale(v, n, t, n);
      DotSelf(n);
      assert t * LengthSq(n) == Dot(v, n);
      ProjectKeepsInPlane(v, n, t);
      Sub(v, Scale(n, t))
  }

  lemma ProjectKeepsInPlane(v: Vec3, n: Vec3, t: real)
    ensures forall w :: Dot(w, n) == 0.0 ==> Dot(Sub(v, Scale(n, t)), w) == Dot(v, w)
  {
    forall w | Dot(w, n) == 0.0
      ensures Dot(Sub(v, Scale(n, t)), w) == Dot(v, w)
    {
      DotSubScale(v, n, t, w);
    }
  }

  /** Two vectors orthogonal to `n` that agree with `v` on n's plane are the
      same vector: the contract of ProjectOnPlane pins its result down. */
  lemma ProjectUnique(v: Vec3, n: Vec3, r1: Vec3, r2: Vec3)
    requires Dot(r1, n) == 0.0 && Dot(r2, n) == 0.0
    requires forall w :: Dot(w, n) == 0.0 ==> Dot(r1, w) == Dot(v, w)
    requires forall w :: Dot(w, n) == 0.0 ==> Dot(r2, w) == Dot(v, w)
    ensures r1 == r2
  {
    var d := Sub(r1, r2);
    assert Dot(d, n) == Dot(r1, n) - Dot(r2, n);
    assert Dot(r1, d) == Dot(v, d) == Dot(r2, d);
    assert Dot(d, d) == Dot(r1, d) - Dot(r2, d);
    DotSelf(d);
    LengthSqZero(d);
  }

  /** Projecting twice is projecting once. */
  lemma ProjectIdempotent(v: Vec3, n: Vec3)
    ensures ProjectOnPlane(ProjectOnPlane(v, n), n) == ProjectOnPlane(v, n)
  {
    var r := ProjectOnPlane(v, n);
    if n == Zero() {
      LengthSqZero(n);
    } else {
      ProjectUnique(r, n, ProjectOnPlane(r, n), r);
    }
  }

  lemma ZeroFactor(a: real, b: real)
    requires a * b == 0.0 && b != 0.0
    ensures a == 0.0
  {
    assert a == (a * b) / b;
  }

  /** Only the direction of the normal matters, so the source's normalize of
      the MTV before projecting changes nothing. */
  lemma ProjectScaleInvariant(v: Vec3, n: Vec3, c: real)
    requires c != 0.0
    ensures ProjectOnPlane(v, Scale(n, c)) == ProjectOnPlane(v, n)
  {
    var m := Scale(n, c);
    if n == Zero() {
      assert m == Zero();
    } else {
      assert m != Zero() by {
        if m == Zero() {
          if n.x != 0.0 { ZeroFactor(c, n.x); }
          else if n.y != 0.0 { ZeroFactor(c, n.y); }
          else { ZeroFactor(c, n.z); }
        }
      }
      var r1, r2 := ProjectOnPlane(v, m), ProjectOnPlane(v, n);
      assert Dot(r1, m) == 0.0;
      DotScale(r1, n, c);
      ZeroFactor(Dot(r1, n), c);
      forall w | Dot(w, n) == 0.0
        ensures Dot(r1, w) == Dot(v, w)
      {
        DotScale(w, n, c);
        assert Dot(w, m) == 0.0;
      }
      ProjectUnique(v, n, r1, r2);
    }
  }

  /** Projecting onto the plane of a single-axis vector zeroes that
      component and keeps the other two. */
  lemma ProjectAlongAxis(v: Vec3, n: Vec3, k: Axis)
    requires AlongAxis(n, k)
    ensures Comp(ProjectOnPlane(v, n), k) == 0.0
    ensures forall j :: j != k ==> Comp(ProjectOnPlane(v, n), j) == Comp(v, j)
  {
    AlongAxisNonzero(n, k);
    var r := ProjectOnPlane(v, n);
    assert Dot(r, n) == Comp(r, k) * Comp(n, k) by {
      match k
      case X => assert n.y == Comp(n, Y) && n.z == Comp(n, Z);
      case Y => assert n.x == Comp(n, X) && n.z == Comp(n, Z);
      case Z => assert n.x == Comp(n, X) && n.y == Comp(n, Y);
    }
    ZeroFactor(Comp(r, k), Comp(n, k));
    forall j | j != k
      ensures Comp(r, j) == Comp(v, j)
    {
      assert Comp(n, j) == 0.0;
      assert Dot(Unit(j), n) == 0.0 by {
        match j
        case X =>
        case Y =>
        case Z =>
      }
      assert Dot(r, Unit(j)) == Dot(v, Unit(j));
      match j
      case X =>
      case Y =>
      case Z =>
    }
  }

  /** planeHeightAtXZ: None exactly when the normal is nearly horizontal;
      otherwise the height h at which (x, h, z) lies on the plane (unique,
      since the normal's y component is nonzero). */
  function PlaneHeightAtXZ(p: Plane, x: real, z: real): (r: Option<real>)
    ensures r.None? <==> Abs(p.normal.y) < 0.000001
    ensures r.Some? ==> Dot(p.normal, Sub(Vec3(x, r.value, z), p.point)) == 0.0
  {
    var n, q := p.normal, p.point;
    if Abs(n.y) < 0.000001 then None
    else
      var h := q.y - (n.x * (x - q.x) + n.z * (z - q.z)) / n.y;
      assert n.y * (h - q.y) == -(n.x * (x - q.x) + n.z * (z - q.z));
      Some(h)
  }

  /** Directly above the plane's anchor the height is the anchor's own. */
  lemma PlaneHeightAtAnchor(p: Plane)
    requires Abs(p.normal.y) >= 0.000001
    ensures PlaneHeightAtXZ(p, p.point.x, p.point.z) == Some(p.point.y)
  {
    var n, q := p.normal, p.point;
    var h := PlaneHeightAtXZ(p, q.x, q.z).value;
    assert Dot(n, Sub(Vec3(q.x, h, q.z), q)) == (h - q.y) * n.y;
    ZeroFactor(h - q.y, n.y);
  }
}

=== FILE: physics.dfy ===
/** The per-frame car step of src/main.js as functions on values: the
    tuning constants, the four phases of resolveCollisionsAndMove (steering
    and velocity, jump, obstacle resolution, ramp conformance or gravity), the
    frame-time clamp of the render loop, and the lemmas that say what each
    phase and the whole step guarantee. The Car class in module CarModel
    performs the same step in place and is proved equal to StepSpec. */
module Physics {
  import opened Vectors
  import opened Geometry

  // Car dimensions (src/main.js:165-167).
  const carWidth: real := 2.0
  const carHeight: real := 1.0
  const carLength: real := 4.0

  // Tuning constants (src/main.js:184-193); speeds are per reference frame.
  const maxSpeed: real := 1.2
  const accelerationRate: real := 0.02
  const brakingRate: real := 0.04
  const airDrag: real := 0.995
  const gravity: real := -0.015
  const restitution: real := 0.3
  const jumpForce: real := 0.35
  const deltaTime: real := 1.0 / 60.0

  // Literals of resolveCollisionsAndMove and animate.
  const turnRate: real := 0.035
  const steerThreshold: real := 0.02
  const jumpTolerance: real := 0.01
  const rampMargin: real := 0.5
  const footHeight: real := 0.1
  const snapEpsilon: real := 0.001
  const rampBlend: real := 0.3
  const maxFrameMs: real := 50.0

  /** Height of the car's centre when it rests on flat ground. */
  const restY: real := carHeight / 2.0

  function CarSize(): Vec3 { Vec3(carWidth, carHeight, carLength) }

  /** The logical controls read once per frame (arrow keys or WASD, space). */
  datatype Controls = Controls(accelerate: bool, brake: bool, left: bool, right: bool, jump: bool)

  /** The car's mutable state: centre position, velocity, heading. */
  datatype Kinematics = Kinematics(position: Vec3, velocity: Vec3, yaw: real)

  /** A ramp as the step sees it: its world bounding box and its surface
      plane (world normal and world position). */
  datatype Ramp = Ramp(box: AABB, plane: Plane)

  // ---------------------------------------------------------------------
  // Frame time
  // ---------------------------------------------------------------------

  /** The render loop's time step: the elapsed milliseconds, capped at 50,
      in seconds. */
  function FrameDt(dtMs: real): (dt: real)
    ensures dt <= 0.05
    ensures dtMs <= maxFrameMs ==> dt * 1000.0 == dtMs
    ensures dtMs >= maxFrameMs ==> dt == 0.05
    ensures dtMs >= 0.0 ==> dt >= 0.0
  {
    Min(maxFrameMs, dtMs) / 1000.0
  }

  /** Number of reference frames that `dt` spans, dt / deltaTime; written
      as a product with the literal 60 so that it stays linear in dt. */
  function Frames(dt: real): real
  {
    dt * 60.0
  }

  /** Frames is the source's dt / deltaTime. */
  lemma FramesIsRatio(dt: real)
    ensures Frames(dt) == dt / deltaTime
  {
  }

  // ---------------------------------------------------------------------
  // Steering, acceleration, speed clamp, jump
  // ---------------------------------------------------------------------

  /** Accelerate adds the acceleration rate and brake subtracts the braking
      rate; with both held they add up. */
  function ForwardAccel(c: Controls): real
  {
    (if c.accelerate then accelerationRate else 0.0) - (if c.brake then brakingRate else 0.0)
  }

  /** Throttle alone gives accelerationRate, brake alone -brakingRate, and
      both held their sum, which is negative: the brake wins. */
  lemma ForwardAccelSign(c: Controls)
    ensures ForwardAccel(c) > 0.0 <==> c.accelerate && !c.brake
    ensures ForwardAccel(c) < 0.0 <==> c.brake
    ensures ForwardAccel(c) == 0.0 <==> !c.accelerate && !c.brake
    ensures -brakingRate <= ForwardAccel(c) <= accelerationRate
    ensures c.accelerate && !c.brake ==> ForwardAccel(c) == accelerationRate
    ensures c.brake && !c.accelerate ==> ForwardAccel(c) == -brakingRate
    ensures c.accelerate && c.brake ==> ForwardAccel(c) == accelerationRate - brakingRate
  {
  }

  /** Left turns by +turnRate and right by -turnRate; both cancel. */
  function Turn(c: Controls): real
  {
    (if c.left then turnRate else 0.0) - (if c.right then turnRate else 0.0)
  }

  /** Left alone turns left, right alone turns right, both or neither do
      not turn; the magnitude is always turnRate or zero. */
  lemma TurnSign(c: Controls)
    ensures Turn(c) > 0.0 <==> c.left && !c.right
    ensures Turn(c) < 0.0 <==> c.right && !c.left
    ensures Abs(Turn(c)) == (if c.left != c.right then turnRate else 0.0)
  {
  }

  function Sign(r: real): real { if r > 0.0 then 1.0 else if r < 0.0 then -1.0 else 0.0 }

  lemma ScaledTurn(turn: real, m: real)
    requires 0.0 < m <= 1.0
    ensures Abs(turn * m) <= Abs(turn)
    ensures m == 1.0 ==> Abs(turn * m) == Abs(turn)
    ensures turn > 0.0 ==> turn * m > 0.0
    ensures turn < 0.0 ==> turn * m < 0.0
  {
    if turn > 0.0 {
      assert turn * m <= turn * 1.0;
    } else if turn < 0.0 {
      assert turn * m >= turn * 1.0;
    }
  }

  /** Heading update: no turn below the speed threshold, never more than the
      turn input, the full turn at top speed, and a turn whose direction
      flips when the car moves backwards. */
  function SteerYaw(yaw: real, speedForward: real, turn: real): (r: real)
    ensures Abs(speedForward) <= steerThreshold ==> r == yaw
    ensures Abs(r - yaw) <= Abs(turn)
    ensures Abs(speedForward) >= maxSpeed ==> Abs(r - yaw) == Abs(turn)
    ensures steerThreshold < Abs(speedForward) <= maxSpeed ==>
      Abs(r - yaw) == Abs(turn) * Abs(speedForward) / maxSpeed
    ensures Abs(speedForward) > steerThreshold && turn != 0.0 ==>
      (r > yaw <==> (turn > 0.0 <==> speedForward > 0.0))
  {
    if Abs(speedForward) > steerThreshold then
      var authority := Min(1.0, Abs(speedForward) / maxSpeed);
      ScaledTurn(turn, authority);
      var signed := turn * Sign(speedForward);
      ScaledTurn(signed, authority);
      yaw + signed * authority
    else yaw
  }

  /** `len` is the Euclidean length of `v`. */
  predicate IsLength(len: real, v: Vec3)
  {
    len >= 0.0 && Mul(len, len) == LengthSq(v)
  }

  /** `length` is the Euclidean length (three.js Vector3.length). */
  ghost predicate Measures(length: Vec3 -> real)
  {
    forall v :: IsLength(length(v), v)
  }

  /** Only the zero vector has length zero. */
  lemma LengthZeroIff(len: real, v: Vec3)
    requires IsLength(len, v)
    ensures len == 0.0 <==> v == Zero()
    ensures len > 0.0 <==> v != Zero()
  {
    MulSigns(len, len);
    LengthSqZero(v);
  }

  lemma MulMonotone(a: real, b: real, c: real, d: real)
    requires 0.0 <= a <= c && 0.0 <= b <= d
    ensures Mul(a, b) <= Mul(c, d)
    ensures a < c && b < d ==> Mul(a, b) < Mul(c, d)
  {
    assert a * b <= c * b <= c * d;
    if a < c && b < d {
      assert c * b < c * d;
    }
  }

  lemma SquareMonotone(a: real, b: real)
    requires 0.0 <= a <= b
    ensures Mul(a, a) <= Mul(b, b)
    ensures a < b ==> Mul(a, a) < Mul(b, b)
  {
    MulMonotone(a, a, b, b);
  }

  lemma LengthSqScale(v: Vec3, c: real)
    ensures LengthSq(Scale(v, c)) == Mul(c, c) * LengthSq(v)
  {
  }

  /** setLength(maxSpeed) when the length exceeds maxSpeed: the result never
      exceeds maxSpeed, keeps a short enough vector as it is, and shrinks a
      long one to exactly maxSpeed along the same direction. */
  function ClampSpeed(v: Vec3, len: real): (r: Vec3)
    requires IsLength(len, v)
    ensures LengthSq(r) <= maxSpeed * maxSpeed
    ensures len <= maxSpeed ==> r == v
    ensures len > maxSpeed ==>
      LengthSq(r) == maxSpeed * maxSpeed && exists c :: 0.0 < c < 1.0 && r == Scale(v, c)
  {
    if len > maxSpeed then
      var c := maxSpeed / len;
      assert c * len == maxSpeed;
      assert 0.0 < c < 1.0;
      LengthSqScale(v, c);
      assert Mul(c, c) * Mul(len, len) == Mul(maxSpeed, maxSpeed);
      Scale(v, c)
    else
      SquareMonotone(len, maxSpeed);
      v
  }

  /** The jump adds jumpForce to the vertical velocity when the car is
      within the tolerance of its resting height. */
  function JumpImpulse(v: Vec3, y: real, jump: bool): Vec3
  {
    if jump && y <= restY + jumpTolerance then v.(y := v.y + jumpForce) else v
  }

  /** The impulse changes the velocity exactly when the jump input is held
      near the ground, and then only upwards by jumpForce. */
  lemma JumpImpulseGate(v: Vec3, y: real, jump: bool)
    ensures JumpImpulse(v, y, jump).x == v.x && JumpImpulse(v, y, jump).z == v.z
    ensures JumpImpulse(v, y, jump) != v <==> jump && y <= restY + jumpTolerance
    ensures JumpImpulse(v, y, jump) != v ==> JumpImpulse(v, y, jump).y == v.y + jumpForce
  {
  }

  /** Throttle along the heading, then air drag. */
  function Accelerate(v: Vec3, forward: Vec3, c: Controls): Vec3
  {
    Scale(Add(v, Scale(forward, ForwardAccel(c))), airDrag)
  }

  /** Steering, acceleration, drag, speed clamp and jump. `forwardAt` gives
      the car's forward vector for a heading and `length` the Euclidean
      length; both come from three.js. */
  function Drive(s: Kinematics, c: Controls, forwardAt: real -> Vec3, length: Vec3 -> real): Kinematics
    requires Measures(length)
  {
    var yaw := SteerYaw(s.yaw, Dot(s.velocity, forwardAt(s.yaw)), Turn(c));
    var dragged := Accelerate(s.velocity, forwardAt(yaw), c);
    var clamped := ClampSpeed(dragged, length(dragged));
    Kinematics(s.position, JumpImpulse(clamped, s.position.y, c.jump), yaw)
  }

  /** The jump input matters only near the ground, and there it adds exactly
      jumpForce to the vertical velocity the rest of the phase produced. */
  lemma JumpGate(s: Kinematics, c: Controls, forwardAt: real -> Vec3, length: Vec3 -> real)
    requires Measures(length)
    ensures var up, stay := Drive(s, c.(jump := true), forwardAt, length), Drive(s, c.(jump := false), forwardAt, length);
      && up.position == stay.position && up.yaw == stay.yaw
      && (s.position.y <= restY + jumpTolerance ==> up.velocity == stay.velocity.(y := stay.velocity.y + jumpForce))
      && (s.position.y > restY + jumpTolerance ==> up.velocity == stay.velocity)
  {
  }

  /** Without a jump impulse the velocity never exceeds maxSpeed. */
  lemma DriveSpeedBound(s: Kinematics, c: Controls, forwardAt: real -> Vec3, length: Vec3 -> real)
    requires Measures(length)
    requires !c.jump || s.position.y > restY + jumpTolerance
    ensures LengthSq(Drive(s, c, forwardAt, length).velocity) <= maxSpeed * maxSpeed
  {
  }

  // ---------------------------------------------------------------------
  // Obstacle resolution
  // ---------------------------------------------------------------------

  /** What one obstacle contributes to the scan: its MTV when the boxes
      intersect and are not separated on any axis, nothing otherwise. */
  function Candidate(box: AABB, o: AABB): Option<Vec3>
  {
    if Intersects(box, o) then GetMTV(box, o) else None
  }

  /** The intersection test in front of getMTV never discards an MTV, and
      an MTV is never the zero vector. */
  lemma CandidateIsMtv(box: AABB, o: AABB)
    ensures Candidate(box, o) == GetMTV(box, o)
    ensures Candidate(box, o).Some? ==> Candidate(box, o).value != Zero()
  {
    if GetMTV(box, o).Some? {
      MtvImpliesIntersects(box, o);
      AlongAxisNonzero(GetMTV(box, o).value, MinAxis(box, o));
    }
  }

  function Candidates(box: AABB, obstacles: seq<AABB>): (r: seq<Option<Vec3>>)
    ensures |r| == |obstacles|
  {
    if obstacles == [] then []
    else Candidates(box, obstacles[..|obstacles| - 1]) + [Candidate(box, obstacles[|obstacles| - 1])]
  }

  lemma {:induction false} CandidatesAt(box: AABB, obstacles: seq<AABB>, i: nat)
    requires i < |obstacles|
    ensures Candidates(box, obstacles)[i] == Candidate(box, obstacles[i])
  {
    var n := |obstacles| - 1;
    if i < n {
      CandidatesAt(box, obstacles[..n], i);
    }
  }

  /** The length of a candidate, that of the zero vector for none. */
  function CandidateLength(c: Option<Vec3>, length: Vec3 -> real): real
  {
    match c
    case None => length(Zero())
    case Some(m) => length(m)
  }

  /** The scan over the candidates: a later vector replaces the kept one only
      when it is strictly longer; the zero vector when there is none. */
  function Longest(cands: seq<Option<Vec3>>, length: Vec3 -> real): Vec3
  {
    if cands == [] then Zero()
    else
      var best := Longest(cands[..|cands| - 1], length);
      match cands[|cands| - 1]
      case Some(m) => if length(m) > length(best) then m else best
      case None => best
  }

  /** Of candidates longer than the zero vector, the scan yields zero exactly
      when there are none, and otherwise the first of the longest. */
  lemma {:induction false} LongestIsFirstMaximum(cands: seq<Option<Vec3>>, length: Vec3 -> real)
    requires forall i :: 0 <= i < |cands| && cands[i].Some? ==> length(cands[i].value) > length(Zero())
    ensures Longest(cands, length) == Zero() <==> forall i :: 0 <= i < |cands| ==> cands[i].None?
    ensures forall i :: 0 <= i < |cands| ==> CandidateLength(cands[i], length) <= length(Longest(cands, length))
    ensures Longest(cands, length) != Zero() ==>
      exists i :: 0 <= i < |cands| && cands[i] == Some(Longest(cands, length)) &&
        forall j :: 0 <= j < i ==> CandidateLength(cands[j], length) < length(Longest(cands, length))
  {
    if cands != [] {
      var n := |cands| - 1;
      var prefix := cands[..n];
      LongestIsFirstMaximum(prefix, length);
      var best, result := Longest(prefix, length), Longest(cands, length);
      forall i | 0 <= i < n
        ensures cands[i] == prefix[i]
      {
      }
      if result != best {
        assert cands[n] == Some(result) && length(result) > length(best);
      } else if best != Zero() {
        var i :| 0 <= i < n && prefix[i] == Some(best) &&
          forall j :: 0 <= j < i ==> CandidateLength(prefix[j], length) < length(best);
        assert cands[i] == Some(result);
      }
    }
  }

  lemma LengthPositive(length: Vec3 -> real, v: Vec3)
    requires Measures(length)
    ensures length(Zero()) == 0.0
    ensures v != Zero() ==> length(v) > 0.0
  {
    LengthZeroIff(length(Zero()), Zero());
    LengthZeroIff(length(v), v);
  }

  /** The obstacle scan of resolveCollisionsAndMove. */
  function LargestMtv(box: AABB, obstacles: seq<AABB>, length: Vec3 -> real): Vec3
  {
    Longest(Candidates(box, obstacles), length)
  }

  /** The length of an obstacle's MTV, 0 when it has none. */
  function MtvLength(box: AABB, o: AABB, length: Vec3 -> real): real
  {
    CandidateLength(GetMTV(box, o), length)
  }

  /** The scan yields zero exactly when no obstacle has an MTV; otherwise it
      yields the MTV of the first obstacle whose MTV is longest. */
  lemma LargestMtvIsFirstMaximum(box: AABB, obstacles: seq<AABB>, length: Vec3 -> real)
    requires Measures(length)
    ensures LargestMtv(box, obstacles, length) == Zero() <==>
      forall i :: 0 <= i < |obstacles| ==> GetMTV(box, obstacles[i]).None?
    ensures forall i :: 0 <= i < |obstacles| ==>
      MtvLength(box, obstacles[i], length) <= length(LargestMtv(box, obstacles, length))
    ensures LargestMtv(box, obstacles, length) != Zero() ==>
      exists i :: 0 <= i < |obstacles| && GetMTV(box, obstacles[i]) == Some(LargestMtv(box, obstacles, length)) &&
        forall j :: 0 <= j < i ==> MtvLength(box, obstacles[j], length) < length(LargestMtv(box, obstacles, length))
  {
    var cands := Candidates(box, obstacles);
    forall i | 0 <= i < |obstacles|
      ensures cands[i] == GetMTV(box, obstacles[i])
      ensures cands[i].Some? ==> length(cands[i].value) > length(Zero())
    {
      CandidatesAt(box, obstacles, i);
      CandidateIsMtv(box, obstacles[i]);
      if cands[i].Some? {
        LengthPositive(length, cands[i].value);
      }
    }
    LongestIsFirstMaximum(cands, length);
  }

  /** A nonzero scan result is one obstacle's MTV, so it lies along one axis. */
  lemma LargestMtvAlongAxis(box: AABB, obstacles: seq<AABB>, length: Vec3 -> real)
    requires Measures(length)
    requires LargestMtv(box, obstacles, length) != Zero()
    ensures exists k :: AlongAxis(LargestMtv(box, obstacles, length), k)
  {
    LargestMtvIsFirstMaximum(box, obstacles, length);
    var i :| 0 <= i < |obstacles| && GetMTV(box, obstacles[i]) == Some(LargestMtv(box, obstacles, length));
    assert AlongAxis(LargestMtv(box, obstacles, length), MinAxis(box, obstacles[i]));
  }

  /** The axis of the largest MTV component; ties go to x, then y. */
  function CollisionAxis(m: Vec3): (k: Axis)
    ensures forall j :: Abs(Comp(m, j)) <= Abs(Comp(m, k))
    ensures forall j :: Index(j) < Index(k) ==> Abs(Comp(m, j)) < Abs(Comp(m, k))
  {
    var ax, ay, az := Abs(m.x), Abs(m.y), Abs(m.z);
    if ax >= ay && ax >= az then X
    else if ay >= ax && ay >= az then Y
    else Z
  }

  /** `v` with its component on axis `k` set to zero. */
  function Without(v: Vec3, k: Axis): Vec3
  {
    match k
    case X => v.(x := 0.0)
    case Y => v.(y := 0.0)
    case Z => v.(z := 0.0)
  }

  /** Collision response: reflect the velocity on the collision axis when it
      moves along that axis's positive direction, then project it onto the
      plane orthogonal to the MTV (the source normalises the MTV first,
      which ProjectScaleInvariant shows to be immaterial). */
  function Respond(v: Vec3, mtv: Vec3): (r: Vec3)
    ensures mtv != Zero() ==> Dot(r, mtv) == 0.0
  {
    var axis := CollisionAxis(mtv);
    var speed := Comp(v, axis);
    var bounced := if speed > 0.0 then Add(v, Scale(Unit(axis), -(1.0 + restitution) * speed)) else v;
    ProjectOnPlane(bounced, mtv)
  }

  /** For a single-axis MTV the response just removes the velocity on that
      axis: the projection cancels the restitution bounce, whose value
      therefore never matters. */
  lemma RespondZeroesAxis(v: Vec3, mtv: Vec3, k: Axis)
    requires AlongAxis(mtv, k)
    ensures Respond(v, mtv) == Without(v, k)
  {
    assert CollisionAxis(mtv) == k;
    var speed := Comp(v, k);
    var bounced := if speed > 0.0 then Add(v, Scale(Unit(k), -(1.0 + restitution) * speed)) else v;
    assert forall j :: j != k ==> Comp(bounced, j) == Comp(v, j) by {
      forall j | j != k
        ensures Comp(bounced, j) == Comp(v, j)
      {
        match k
        case X => match j { case X => case Y => case Z => }
        case Y => match j { case X => case Y => case Z => }
        case Z => match j { case X => case Y => case Z => }
      }
    }
    ProjectAlongAxis(bounced, mtv, k);
    var r := Respond(v, mtv);
    match k
    case X => assert r.y == Comp(r, Y) == Comp(v, Y) && r.z == Comp(r, Z) == Comp(v, Z);
    case Y => assert r.x == Comp(r, X) == Comp(v, X) && r.z == Comp(r, Z) == Comp(v, Z);
    case Z => assert r.x == Comp(r, X) == Comp(v, X) && r.y == Comp(r, Y) == Comp(v, Y);
  }

  /** Where the velocity takes a point over `dt`. */
  function Advance(p: Vec3, v: Vec3, dt: real): Vec3
  {
    Add(p, Scale(v, Frames(dt)))
  }

  /** Push-out by the chosen MTV from the position before the tentative
      move, with the collision response; the tentative move when the MTV is
      zero. */
  function Resolve(s: Kinematics, next: Vec3, mtv: Vec3): Kinematics
  {
    if LengthSq(mtv) > 0.0 then Kinematics(Add(s.position, mtv), Respond(s.velocity, mtv), s.yaw)
    else s.(position := next)
  }

  /** Tentative move, obstacle scan at the tentative position, resolution. */
  function Collide(s: Kinematics, dt: real, obstacles: seq<AABB>, length: Vec3 -> real): Kinematics
  {
    var next := Advance(s.position, s.velocity, dt);
    Resolve(s, next, LargestMtv(BoxFromCenterAndSize(next, CarSize()), obstacles, length))
  }

  lemma ResolveZero(s: Kinematics, next: Vec3)
    ensures Resolve(s, next, Zero()) == s.(position := next)
  {
  }

  lemma ResolveAlongAxis(s: Kinematics, next: Vec3, mtv: Vec3, k: Axis)
    requires AlongAxis(mtv, k)
    ensures Resolve(s, next, mtv) == Kinematics(Add(s.position, mtv), Without(s.velocity, k), s.yaw)
  {
    AlongAxisNonzero(mtv, k);
    LengthSqZero(mtv);
    RespondZeroesAxis(s.velocity, mtv, k);
  }

  /** With no MTV (by LargestMtvIsFirstMaximum: no obstacle in the way) the
      car moves by its velocity over the elapsed frames. Otherwise it is
      pushed from where it was BEFORE the tentative move by the chosen MTV,
      and its velocity loses exactly the component on the MTV's axis. */
  lemma CollideSpec(s: Kinematics, dt: real, obstacles: seq<AABB>, length: Vec3 -> real)
    requires Measures(length)
    ensures var next := Advance(s.position, s.velocity, dt);
      var mtv := LargestMtv(BoxFromCenterAndSize(next, CarSize()), obstacles, length);
      var r := Collide(s, dt, obstacles, length);
      && (mtv == Zero() ==> r == s.(position := next))
      && (mtv != Zero() ==>
            exists k :: AlongAxis(mtv, k) && r == Kinematics(Add(s.position, mtv), Without(s.velocity, k), s.yaw))
  {
    var next := Advance(s.position, s.velocity, dt);
    var box := BoxFromCenterAndSize(next, CarSize());
    var mtv := LargestMtv(box, obstacles, length);
    if mtv == Zero() {
      ResolveZero(s, next);
    } else {
      LargestMtvAlongAxis(box, obstacles, length);
      var k :| AlongAxis(mtv, k);
      ResolveAlongAxis(s, next, mtv, k);
    }
  }

  // ---------------------------------------------------------------------
  // Ramps and gravity
  // ---------------------------------------------------------------------

  /** The thin box under the car used to detect ramps. */
  function FootBox(p: Vec3): AABB
  {
    BoxFromCenterAndSize(Vec3(p.x, 0.0, p.z), Vec3(carWidth, footHeight, carLength))
  }

  /** A ramp's box grown by the margin on x and z. */
  function Expand(b: AABB): AABB
  {
    AABB(b.min.(x := b.min.x - rampMargin, z := b.min.z - rampMargin),
         b.max.(x := b.max.x + rampMargin, z := b.max.z + rampMargin))
  }

  /** The plane height of a ramp under the car, when the foot box meets the
      ramp's grown box and the ramp's plane is not vertical. */
  function RampHit(r: Ramp, p: Vec3): Option<real>
  {
    if Intersects(FootBox(p), Expand(r.box)) then PlaneHeightAtXZ(r.plane, p.x, p.z) else None
  }

  /** The ramp scan, in list order, stopping at the first hit. */
  function RampTarget(ramps: seq<Ramp>, p: Vec3): Option<real>
  {
    if ramps == [] then None
    else if RampHit(ramps[0], p).Some? then RampHit(ramps[0], p)
    else RampTarget(ramps[1..], p)
  }

  /** The scan finds nothing exactly when no ramp is hit, and otherwise the
      height of the first ramp hit. */
  lemma {:induction false} RampTargetIsFirstMatch(ramps: seq<Ramp>, p: Vec3)
    ensures RampTarget(ramps, p).None? <==> forall i :: 0 <= i < |ramps| ==> RampHit(ramps[i], p).None?
    ensures RampTarget(ramps, p).Some? ==>
      exists i :: 0 <= i < |ramps| && RampHit(ramps[i], p) == RampTarget(ramps, p) &&
        forall j :: 0 <= j < i ==> RampHit(ramps[j], p).None?
  {
    if ramps != [] && RampHit(ramps[0], p).None? {
      RampTargetIsFirstMatch(ramps[1..], p);
      assert forall i :: 1 <= i < |ramps| ==> ramps[i] == ramps[1..][i - 1];
      if RampTarget(ramps, p).Some? {
        var i :| 0 <= i < |ramps| - 1 && RampHit(ramps[1..][i], p) == RampTarget(ramps, p) &&
          forall j :: 0 <= j < i ==> RampHit(ramps[1..][j], p).None?;
        assert RampHit(ramps[i + 1], p) == RampTarget(ramps, p);
        forall j | 0 <= j < i + 1
          ensures RampHit(ramps[j], p).None?
        {
          if j > 0 { assert ramps[j] == ramps[1..][j - 1]; }
        }
      } else {
        forall i | 0 <= i < |ramps|
          ensures RampHit(ramps[i], p).None?
        {
          if i > 0 { assert ramps[i] == ramps[1..][i - 1]; }
        }
      }
    } else if ramps != [] {
      assert RampHit(ramps[0], p) == RampTarget(ramps, p);
    }
  }

  /** three.js MathUtils.lerp. */
  function Lerp(a: real, b: real, t: real): real { a + (b - a) * t }

  /** The new height on a ramp: a car below the target by more than the
      epsilon snaps up to it; otherwise it moves towards the target, never
      past it, and strictly closer unless already there. */
  function RampY(y: real, desired: real): (r: real)
    ensures y < desired - snapEpsilon ==> r == desired
    ensures y >= desired - snapEpsilon ==> Min(y, desired) <= r <= Max(y, desired)
    ensures y >= desired - snapEpsilon && y != desired ==> Abs(r - desired) < Abs(y - desired)
    ensures y >= desired - snapEpsilon ==> desired - r == (1.0 - rampBlend) * (desired - y)
  {
    if y < desired - snapEpsilon then desired else Lerp(y, desired, rampBlend)
  }

  /** On a ramp: height towards the plane height plus half the car's height,
      vertical velocity zeroed. */
  function OnRamp(s: Kinematics, target: real): Kinematics
  {
    var desired := target + carHeight / 2.0;
    Kinematics(s.position.(y := RampY(s.position.y, desired)), s.velocity.(y := 0.0), s.yaw)
  }

  /** Off the ramps: gravity, vertical move, and the clamp at resting height. */
  function Fall(s: Kinematics, dt: real): (r: Kinematics)
    ensures r.position.y >= restY
    ensures r.position.x == s.position.x && r.position.z == s.position.z
    ensures r.velocity.x == s.velocity.x && r.velocity.z == s.velocity.z && r.yaw == s.yaw
    ensures r.position.y > restY ==>
      r.velocity.y == s.velocity.y + gravity * Frames(dt) && r.position.y == s.position.y + Mul(r.velocity.y, Frames(dt))
    ensures r.position.y == restY ==> r.velocity.y == 0.0 || r.velocity.y == s.velocity.y + gravity * Frames(dt)
    ensures var vy := s.velocity.y + gravity * Frames(dt);
      s.position.y + Mul(vy, Frames(dt)) >= restY ==>
        r.position.y == s.position.y + Mul(vy, Frames(dt)) && r.velocity.y == vy
    ensures s.position.y + Mul(s.velocity.y + gravity * Frames(dt), Frames(dt)) < restY ==>
      r.position.y == restY && r.velocity.y == 0.0
  {
    var vy := s.velocity.y + gravity * Frames(dt);
    var y := s.position.y + Mul(vy, Frames(dt));
    if y < restY then Kinematics(s.position.(y := restY), s.velocity.(y := 0.0), s.yaw)
    else Kinematics(s.position.(y := y), s.velocity.(y := vy), s.yaw)
  }

  function Settle(s: Kinematics, dt: real, ramps: seq<Ramp>): Kinematics
  {
    match RampTarget(ramps, s.position)
    case Some(target) => OnRamp(s, target)
    case None => Fall(s, dt)
  }

  /** Off the ramps the car never ends below its resting height; when the
      ground clamp acts its vertical velocity is zero, and otherwise gravity
      has been added to it. Nothing horizontal changes. */
  lemma SettleOffRamp(s: Kinematics, dt: real, ramps: seq<Ramp>)
    requires forall i :: 0 <= i < |ramps| ==> RampHit(ramps[i], s.position).None?
    ensures var r := Settle(s, dt, ramps);
      && r.position.y >= restY
      && r.position.x == s.position.x && r.position.z == s.position.z
      && r.velocity.x == s.velocity.x && r.velocity.z == s.velocity.z && r.yaw == s.yaw
      && (r.position.y > restY ==> r.velocity.y == s.velocity.y + gravity * Frames(dt))
      && (s.position.y + Mul(s.velocity.y + gravity * Frames(dt), Frames(dt)) < restY ==>
            r.position.y == restY && r.velocity.y == 0.0)
  {
    RampTargetIsFirstMatch(ramps, s.position);
  }

  /** On a ramp the vertical velocity is zero and the height obeys RampY. */
  lemma SettleOnRamp(s: Kinematics, dt: real, ramps: seq<Ramp>, i: nat)
    requires i < |ramps| && RampHit(ramps[i], s.position).Some?
    requires forall j :: 0 <= j < i ==> RampHit(ramps[j], s.position).None?
    ensures var r := Settle(s, dt, ramps);
      var desired := RampHit(ramps[i], s.position).value + carHeight / 2.0;
      && r.velocity == s.velocity.(y := 0.0)
      && r.position == s.position.(y := RampY(s.position.y, desired))
      && r.yaw == s.yaw
  {
    RampTargetIsFirstMatch(ramps, s.position);
    var k :| 0 <= k < |ramps| && RampHit(ramps[k], s.position) == RampTarget(ramps, s.position) &&
      forall j :: 0 <= j < k ==> RampHit(ramps[j], s.position).None?;
    assert k == i;
  }


  // ---------------------------------------------------------------------
  // The whole step
  // ---------------------------------------------------------------------

  /** resolveCollisionsAndMove as a function of the state before the frame. */
  function StepSpec(s: Kinematics, dt: real, c: Controls, forwardAt: real -> Vec3, length: Vec3 -> real,
                    obstacles: seq<AABB>, ramps: seq<Ramp>): Kinematics
    requires Measures(length)
  {
    Settle(Collide(Drive(s, c, forwardAt, length), dt, obstacles, length), dt, ramps)
  }

  const idle: Controls := Controls(false, false, false, false, false)

  /** From rest, without throttle or brake, the driving phase changes
      nothing but the jump: steering needs speed, drag and the clamp leave a
      zero velocity alone, and the jump gives exactly jumpForce upwards when
      the car is on the ground. */
  lemma DriveFromRest(s: Kinematics, c: Controls, forwardAt: real -> Vec3, length: Vec3 -> real)
    requires Measures(length)
    requires s.velocity == Zero() && !c.accelerate && !c.brake
    ensures var d := Drive(s, c, forwardAt, length);
      && d.position == s.position && d.yaw == s.yaw
      && d.velocity == (if c.jump && s.position.y <= restY + jumpTolerance then Vec3(0.0, jumpForce, 0.0) else Zero())
  {
    SteerAtRest(s.yaw, forwardAt(s.yaw), Turn(c));
    AccelerateIdle(forwardAt(s.yaw), c);
    ClampAtRest(length(Zero()));
  }

  lemma ClampAtRest(len: real)
    requires IsLength(len, Zero())
    ensures ClampSpeed(Zero(), len) == Zero()
  {
    LengthZeroIff(len, Zero());
  }

  lemma SteerAtRest(yaw: real, forward: Vec3, turn: real)
    ensures SteerYaw(yaw, Dot(Zero(), forward), turn) == yaw
  {
  }

  lemma AccelerateIdle(forward: Vec3, c: Controls)
    requires !c.accelerate && !c.brake
    ensures Accelerate(Zero(), forward, c) == Zero()
  {
  }

  /** A car at rest on flat ground, with nothing under or around it and no
      input, stays exactly where it is, frame after frame. */
  lemma RestingIsStable(s: Kinematics, dt: real, forwardAt: real -> Vec3, length: Vec3 -> real,
                        obstacles: seq<AABB>, ramps: seq<Ramp>)
    requires Measures(length)
    requires s.velocity == Zero() && s.position.y == restY && dt >= 0.0
    requires forall i :: 0 <= i < |obstacles| ==>
      GetMTV(BoxFromCenterAndSize(s.position, CarSize()), obstacles[i]).None?
    requires forall i :: 0 <= i < |ramps| ==> RampHit(ramps[i], s.position).None?
    ensures StepSpec(s, dt, idle, forwardAt, length, obstacles, ramps) == s
  {
    DriveFromRest(s, idle, forwardAt, length);
    assert Drive(s, idle, forwardAt, length) == s;
    AdvanceAtRest(s.position, dt);
    LargestMtvIsFirstMaximum(BoxFromCenterAndSize(s.position, CarSize()), obstacles, length);
    CollideSpec(s, dt, obstacles, length);
    assert Collide(s, dt, obstacles, length) == s;
    RampTargetIsFirstMatch(ramps, s.position);
    FallAtRest(s, dt);
  }

  lemma AdvanceAtRest(p: Vec3, dt: real)
    ensures Advance(p, Zero(), dt) == p
  {
  }

  /** On the ground and not moving vertically, gravity changes nothing. */
  lemma FallAtRest(s: Kinematics, dt: real)
    requires s.velocity.y == 0.0 && s.position.y == restY && dt >= 0.0
    ensures Fall(s, dt) == s
  {
    var k := Frames(dt);
    MulSigns(0.0 + gravity * k, k);
  }

  /** No obstacle has an MTV against the car's box centred at `p`. */
  predicate Clear(p: Vec3, obstacles: seq<AABB>)
  {
    forall i :: 0 <= i < |obstacles| ==> GetMTV(BoxFromCenterAndSize(p, CarSize()), obstacles[i]).None?
  }

  /** No ramp is hit by the car's foot box at `p`. */
  predicate OffRamps(p: Vec3, ramps: seq<Ramp>)
  {
    forall i :: 0 <= i < |ramps| ==> RampHit(ramps[i], p).None?
  }

  /** Off the ramps and clear of obstacles, the vertical velocity moves the
      car twice in one frame: once in the tentative move and once more in
      the gravity phase. */
  lemma VerticalMoveTwice(s: Kinematics, dt: real, length: Vec3 -> real, obstacles: seq<AABB>, ramps: seq<Ramp>)
    requires Clear(Advance(s.position, s.velocity, dt), obstacles)
    requires OffRamps(Advance(s.position, s.velocity, dt), ramps)
    ensures var r := Settle(Collide(s, dt, obstacles, length), dt, ramps);
      var k := Frames(dt);
      var vy := s.velocity.y + gravity * k;
      s.position.y + Mul(s.velocity.y, k) + Mul(vy, k) >= restY ==>
        r.position.y == s.position.y + Mul(s.velocity.y, k) + Mul(vy, k) && r.velocity.y == vy
  {
    var moved := s.(position := Advance(s.position, s.velocity, dt));
    CollideClear(s, dt, obstacles, length);
    SettleNoRamp(moved, dt, ramps);
    assert Settle(Collide(s, dt, obstacles, length), dt, ramps) == Fall(moved, dt);
    AdvanceY(s.position, s.velocity, dt);
    FallFree(moved, dt);
  }

  /** When no obstacle has an MTV at the tentative position, the car takes
      the whole tentative move and keeps its velocity. */
  lemma CollideClear(s: Kinematics, dt: real, obstacles: seq<AABB>, length: Vec3 -> real)
    requires Clear(Advance(s.position, s.velocity, dt), obstacles)
    ensures Collide(s, dt, obstacles, length) == s.(position := Advance(s.position, s.velocity, dt))
  {
    var next := Advance(s.position, s.velocity, dt);
    var box := BoxFromCenterAndSize(next, CarSize());
    var cands := Candidates(box, obstacles);
    forall i | 0 <= i < |cands|
      ensures cands[i].None?
    {
      CandidatesAt(box, obstacles, i);
      CandidateIsMtv(box, obstacles[i]);
    }
    LongestIsFirstMaximum(cands, length);
    ResolveZero(s, next);
  }

  lemma AdvanceY(p: Vec3, v: Vec3, dt: real)
    ensures Advance(p, v, dt).y == p.y + Mul(v.y, Frames(dt))
  {
  }

  lemma SettleNoRamp(s: Kinematics, dt: real, ramps: seq<Ramp>)
    requires forall i :: 0 <= i < |ramps| ==> RampHit(ramps[i], s.position).None?
    ensures Settle(s, dt, ramps) == Fall(s, dt)
  {
    RampTargetIsFirstMatch(ramps, s.position);
  }

  lemma FallFree(s: Kinematics, dt: real)
    ensures var k := Frames(dt);
      var vy := s.velocity.y + gravity * k;
      s.position.y + Mul(vy, k) >= restY ==>
        Fall(s, dt).position.y == s.position.y + Mul(vy, k) && Fall(s, dt).velocity.y == vy
  {
  }

  /** A jump from rest on flat ground, with no obstacle MTV and no ramp hit
      at the tentative position, leaves the ground in the same frame: the
      vertical velocity is jumpForce plus one frame of gravity, and the
      height gains both velocities in turn (VerticalMoveTwice). */
  lemma JumpTakesOff(s: Kinematics, dt: real, forwardAt: real -> Vec3, length: Vec3 -> real,
                     obstacles: seq<AABB>, ramps: seq<Ramp>)
    requires Measures(length)
    requires s.velocity == Zero() && s.position.y == restY && 0.0 < dt <= 0.05
    requires Clear(Advance(s.position, Vec3(0.0, jumpForce, 0.0), dt), obstacles)
    requires OffRamps(Advance(s.position, Vec3(0.0, jumpForce, 0.0), dt), ramps)
    ensures var r := StepSpec(s, dt, idle.(jump := true), forwardAt, length, obstacles, ramps);
      var k := Frames(dt);
      && r.velocity == Vec3(0.0, jumpForce + gravity * k, 0.0)
      && r.position == s.position.(y := restY + jumpForce * k + Mul(jumpForce + gravity * k, k))
      && r.position.y > restY + jumpForce * k
  {
    var c := idle.(jump := true);
    DriveFromRest(s, c, forwardAt, length);
    var d := Drive(s, c, forwardAt, length);
    assert d == s.(velocity := Vec3(0.0, jumpForce, 0.0));
    var k := Frames(dt);
    assert 0.0 < k <= 3.0;
    var vy := jumpForce + gravity * k;
    assert vy > 0.0;
    MulSigns(vy, k);
    assert Mul(jumpForce, k) == jumpForce * k;
    VerticalMoveTwice(d, dt, length, obstacles, ramps);
    CollideClear(d, dt, obstacles, length);
  }
}

=== FILE: vectors.dfy ===
/** Exact 3-vector algebra over the reals: the part of three.js's Vector3 that
    the car step uses (add, sub, multiplyScalar, dot, lengthSq), as values. */
module Vectors {

  datatype Vec3 = Vec3(x: real, y: real, z: real)

  /** The three coordinate axes, in the order the source breaks ties: x, y, z. */
  datatype Axis = X | Y | Z

  function Index(a: Axis): nat
  {
    match a
    case X => 0
    case Y => 1
    case Z => 2
  }

  function Comp(v: Vec3, a: Axis): real
  {
    match a
    case X => v.x
    case Y => v.y
    case Z => v.z
  }

  function Zero(): Vec3 { Vec3(0.0, 0.0, 0.0) }

  /** The unit vector along an axis. */
  function Unit(a: Axis): Vec3
  {
    match a
    case X => Vec3(1.0, 0.0, 0.0)
    case Y => Vec3(0.0, 1.0, 0.0)
    case Z => Vec3(0.0, 0.0, 1.0)
  }

  function Add(u: Vec3, v: Vec3): Vec3 { Vec3(u.x + v.x, u.y + v.y, u.z + v.z) }

  function Sub(u: Vec3, v: Vec3): Vec3 { Vec3(u.x - v.x, u.y - v.y, u.z - v.z) }

  function Scale(v: Vec3, c: real): Vec3 { Vec3(v.x * c, v.y * c, v.z * c) }

  function Dot(u: Vec3, v: Vec3): real { u.x * v.x + u.y * v.y + u.z * v.z }

  /** A product written as a function, so that squares below stay single
      terms for the solver, whose sign facts come from MulSigns. */
  function Mul(a: real, b: real): real { a * b }

  /** Squared length, x*x + y*y + z*z. */
  function LengthSq(v: Vec3): real { Mul(v.x, v.x) + Mul(v.y, v.y) + Mul(v.z, v.z) }

  function Abs(r: real): real { if r < 0.0 then -r else r }

  function Min(a: real, b: real): real { if a < b then a else b }

  function Max(a: real, b: real): real { if a > b then a else b }

  /** `v` has exactly one nonzero component, the one on axis `k`. */
  predicate AlongAxis(v: Vec3, k: Axis)
  {
    Comp(v, k) != 0.0 && forall j :: j != k ==> Comp(v, j) == 0.0
  }

  lemma MulSigns(a: real, b: real)
    ensures (a > 0.0 && b > 0.0) || (a < 0.0 && b < 0.0) ==> Mul(a, b) > 0.0
    ensures (a > 0.0 && b < 0.0) || (a < 0.0 && b > 0.0) ==> Mul(a, b) < 0.0
    ensures a == 0.0 || b == 0.0 ==> Mul(a, b) == 0.0
  {
    if a > 0.0 && b > 0.0 { assert a * b > 0.0; }
    if a < 0.0 && b < 0.0 { assert a * b > 0.0; }
    if a > 0.0 && b < 0.0 { assert a * b < 0.0; }
    if a < 0.0 && b > 0.0 { assert a * b < 0.0; }
  }

  lemma DotSelf(v: Vec3)
    ensures Dot(v, v) == LengthSq(v)
  {
  }

  /** The squared length is positive definite. */
  lemma LengthSqZero(v: Vec3)
    ensures LengthSq(v) >= 0.0
    ensures LengthSq(v) == 0.0 <==> v == Zero()
  {
    MulSigns(v.x, v.x);
    MulSigns(v.y, v.y);
    MulSigns(v.z, v.z);
  }

  lemma AlongAxisNonzero(v: Vec3, k: Axis)
    requires AlongAxis(v, k)
    ensures v != Zero()
  {
    match k
    case X =>
    case Y =>
    case Z =>
  }

  /** Dot product is linear in its first argument. */
  lemma DotSubScale(v: Vec3, n: Vec3, t: real, w: Vec3)
    ensures Dot(Sub(v, Scale(n, t)), w) == Dot(v, w) - t * Dot(n, w)
  {
  }

  /** ... and in its second. */
  lemma DotScale(u: Vec3, n: Vec3, c: real)
    ensures Dot(u, Scale(n, c)) == c * Dot(u, n)
  {
  }
}
